=== FILE: README.md ===
# Appointment booking core, modelled in Dafny

This project models the two components of the booking screens that hold
sequential logic, as pure functions over immutable records.

- **The appointment form** (`AppointmentForm`). It holds two copies of the
  appointment being entered, each with four fields (patient, practitioner,
  start, end): the component's own `formData`, which a submit sends, and
  the form library's working values, which its validation reads. The
  library also keeps the values it mounted with, which its reset restores.
  The form further holds the appointment being edited, if any (fixed for the
  form's whole life), the selected slot index and the availability list of
  the chosen practitioner. Each handler is a function of the old form and
  its input. It is total on the inputs the rendered form offers; the date
  select, for one, offers only the blank option and the listed slots:
  - a field edit;
  - a practitioner change, which replaces the slot list wholesale and clears
    the dates and the selection;
  - a slot pick;
  - a reset;
  - the edit-mode initialisation, a `findIndex` on the start date;
  - the presence-only validation gate;
  - the submit, which creates or updates depending on whether an edit target
    exists, and resets the draft only on success.

  Each input's change handler is modelled separately, with what it writes
  to each copy. The two copies drift apart after three events: the
  Reset button, a practitioner change whose fetch fails, and a successful
  submit. See "Findings".
- **The appointment list** (`AppointmentList`). It covers:
  - search-input normalisation;
  - the render-time filter over the unpaginated list;
  - the practitioner-name lookup the filter uses;
  - the edit popup;
  - the two-phase delete (mark, then confirm);
  - the effect that drops pending targets once both the popup and the
    dialog are closed.

Supporting modules:
- `Text` holds JavaScript's `trim`, `startsWith`, `includes`, an ASCII
  `toLowerCase`, and the decimal rendering of integer ids.
- `Seqs` holds `findIndex` and the order-keeping filter.
- `Records` holds the entities (appointment, slot, practitioner, draft), the
  `Success | Failure` outcome of every network call, and the mutating
  requests.

Network calls are not performed. Each becomes a parameter carrying its
outcome: `Response<T> = Success(payload) | Failure`. A handler that awaits a
rejected promise stops before any state update, so on `Failure` it returns
its input unchanged.

`formatDateRange` lives outside this model. Every operation that shows a
date range takes it as a parameter `fmt: (string, string) -> string`.

The selected slot index is overloaded in the component. It is `null` at
first, `''` after a reset, a practitioner change or a blank pick, a numeric
string after a pick, and -1 when the edit-mode search finds nothing. The
model spells this out as `Selection = Unchosen | Cleared | At(index)`.

Two invariants are proved along any run of events:
- `AppointmentForm.Coherent`: a numeric selection is -1 or an index inside
  the list currently shown. -1 (the edit-mode search found no slot) names
  no slot. A non-negative index names the slot whose start the draft holds.
  With no numeric selection both dates are empty. No stale index survives
  a practitioner change.
- `AppointmentList.Consistent`: with the popup and the dialog both closed,
  nothing is pending. An open dialog always has a target to delete, and an
  open popup always has an appointment to edit.

## Model

| member | source | states |
|---|---|---|
| `Text.Trim` | src/components/AppointmentList.tsx:94 | the trimmed input is empty exactly when every character is ECMAScript white space; otherwise it starts and ends with a non-space |
| `Text.TrimStart` | src/components/AppointmentList.tsx:94 | the leading part `trim` drops is all white space, and what remains is a suffix of the input starting with a non-space |
| `Text.TrimEnd` | src/components/AppointmentList.tsx:94 | the trailing part `trim` drops is all white space, and what remains is a prefix of the input ending with a non-space |
| `Text.LowerString` | src/components/AppointmentList.tsx:97 | `toLowerCase` keeps the length and lowers each character in place |
| `Text.LowerFacts` | src/components/AppointmentList.tsx:97 | lowering a character never changes whether it is white space, lowering twice is lowering once, and exactly the ASCII letters lower to 'a'..'z' |
| `Text.LowerStringIdempotent` | src/components/AppointmentList.tsx:97 | lowering an already lowered string changes nothing |
| `Text.StartsWith` | src/components/AppointmentList.tsx:173-174 | `startsWith` holds exactly when the prefix is no longer than the string and agrees with it character by character |
| `Text.Contains` | src/components/AppointmentList.tsx:175-181 | `includes` is true exactly when the query occurs at some position of the text |
| `Text.ContainsLowered` | src/components/AppointmentList.tsx:175-181 | a lower-case query found in a text is also found in the lowered text, so lowering the text can only widen `includes` |
| `Text.Digits` | src/components/AppointmentList.tsx:173-174 | a natural number renders as a non-empty run of decimal digits without a leading zero |
| `Text.DecimalString` | src/components/AppointmentList.tsx:173-174 | `toString()` of an integer id is a non-empty string of digits, led by '-' exactly when the id is negative |
| `Text.DigitsRoundTrip` | src/components/AppointmentList.tsx:173-174 | reading a number's digits back gives the number |
| `Text.DecimalRoundTrip` | src/components/AppointmentList.tsx:173-174 | the decimal string of an id parses back to that id, so two ids render alike only when equal |
| `Text.DecimalStringIsLowerAndVisible` | src/components/AppointmentList.tsx:173-174 | an id's decimal string is never blank and lowering leaves it as it is, so it survives search normalisation intact |
| `Seqs.FindIndex` | src/components/AppointmentForm.tsx:100-102 | the result is the first position satisfying the predicate, with none before it, or -1 exactly when no element satisfies it |
| `Seqs.Filter` | src/components/AppointmentList.tsx:171-181 | the kept elements are exactly the input elements that pass, each with its original multiplicity |
| `Seqs.FilterIsSubsequence` | src/components/AppointmentList.tsx:171-231 | the filtered list is a subsequence of the input: nothing added, nothing reordered |
| `Seqs.FilterKeepingAll` | src/components/AppointmentList.tsx:172 | when every element passes, the filter returns the input list itself |
| `Seqs.FilterAgreeing` | src/components/AppointmentList.tsx:171-181 | the filter depends only on the verdicts on the list's own elements |
| `AppointmentForm.IdField` | src/components/AppointmentForm.tsx:75-76 | an id seeds an empty field exactly when it is 0, which is falsy and so falls back to the empty string; otherwise the field parses back to the id |
| `AppointmentForm.SetField` | src/components/AppointmentForm.tsx:168-171 | the computed-key update `[e.target.name]: value` sets the named field and keeps the other three |
| `AppointmentForm.InitialDraft` | src/components/AppointmentForm.tsx:74-79 | the draft starts empty for a new appointment, and from the edited appointment's dates and ids otherwise |
| `AppointmentForm.Initial` | src/components/AppointmentForm.tsx:83-105 | the form starts with the initial slots, and the library's values and mount values both equal the initial draft, and the edit target is the one given; in edit mode only, the selection is the first slot whose start equals the draft's start, or -1 when none does; otherwise nothing is selected |
| `AppointmentForm.EditField` | src/components/AppointmentForm.tsx:165-172 | the named field of the draft takes the new value; the other three fields, the library's values, the selection and the slot list are unchanged |
| `AppointmentForm.EditFieldUndo` | src/components/AppointmentForm.tsx:165-172 | typing a field's old value back restores the whole form, so an edit touches nothing but its field |
| `AppointmentForm.ChangePractitioner` | src/components/AppointmentForm.tsx:110-127 | on arrival the fetched list replaces the slots, the practitioner is set in the draft, both draft dates are cleared, the selection is cleared and the patient is kept; a failed fetch changes nothing |
| `AppointmentForm.PickSlot` | src/components/AppointmentForm.tsx:132-140 | slot i copies that slot's start and end into the draft and records i; the blank option clears both dates and records the blank selection; patient, practitioner, slots and the library's values are untouched |
| `AppointmentForm.Reset` | src/components/AppointmentForm.tsx:174-182 | all four draft fields are empty, the selection is cleared, the slot list is kept, and the library's values are not touched |
| `AppointmentForm.SelectPatient` | src/components/AppointmentForm.tsx:225-228 | the patient select writes the patient into both the draft and the library's values, and nothing else |
| `AppointmentForm.SelectPractitioner` | src/components/AppointmentForm.tsx:258-264 | the library's values take the practitioner and lose both dates whether or not the fetch succeeds; everything else is the practitioner change above |
| `AppointmentForm.SelectSlot` | src/components/AppointmentForm.tsx:293-304 | the date select makes the slot pick above and writes the same two dates into the library's values |
| `AppointmentForm.PressReset` | src/components/AppointmentForm.tsx:334-343 | the Reset button empties the draft and clears the selection, while the library's values return to those it mounted with |
| `AppointmentForm.ResetIdempotent` | src/components/AppointmentForm.tsx:174-182 | resetting twice equals resetting once, for the draft alone and for the Reset button, and the draft ends empty |
| `AppointmentForm.MissingFields` | src/components/AppointmentForm.tsx:49-55 | the fields reported as required are exactly the empty ones |
| `AppointmentForm.IsValid` | src/components/AppointmentForm.tsx:49-55 | the schema accepts a copy exactly when none of its four fields is empty |
| `AppointmentForm.ValidIffAllPresent` | src/components/AppointmentForm.tsx:49-55 | the draft passes validation iff all four fields are non-empty; there is no format or range check |
| `AppointmentForm.RequestFor` | src/components/AppointmentForm.tsx:143-155 | the request is an update carrying the edit target's id iff there is an edit target, otherwise a create; either way its body is the given draft |
| `AppointmentForm.Submit` | src/components/AppointmentForm.tsx:142-163 | as written: a request is sent iff the library's values are valid, and its body is the draft, sent as an update of the form's own edit target when it has one and as a create otherwise; exactly one refresh happens and the draft resets iff that request succeeds, while the library's values stay; on failure the form is unchanged; only a successful create shows the form's own message |
| `AppointmentForm.InvalidValuesSendNothing` | src/components/AppointmentForm.tsx:196-199 | with any required field of the library's values empty, a submit sends nothing, asks for no refresh and leaves the form as it was, whatever the draft holds |
| `AppointmentForm.SubmitCheckingDraft` | src/components/AppointmentForm.tsx:142-163 | corrected: a request is sent iff the draft is valid, so every body sent is complete; otherwise as the submit above |
| `AppointmentForm.InvalidSubmitSendsNothing` | src/components/AppointmentForm.tsx:49-55 | corrected: with any required field of the draft empty a submit sends no request, asks for no refresh and leaves the form as it was |
| `AppointmentForm.AgreeingCopiesSubmitAlike` | src/components/AppointmentForm.tsx:196-199 | while the library's values equal the draft, the submit as written and the corrected one behave identically |
| `AppointmentForm.ResetThenSubmitSendsEmptyUpdate` | src/components/AppointmentForm.tsx:336-339 | in the edit popup, Reset then Submit sends an update of the edited appointment with all four fields empty; the corrected submit sends nothing |
| `AppointmentForm.SubmitAgainSendsEmptyCreate` | src/components/AppointmentForm.tsx:154-160 | after a successful create, a second Submit sends a create with all four fields empty; the corrected submit sends nothing |
| `AppointmentForm.PickAfterPractitionerChange` | src/components/AppointmentForm.tsx:121-140 | after a practitioner change the selection is cleared, and a later pick of index i yields exactly the new list's slot i dates |
| `AppointmentForm.PractitionerChangeForgetsOldList` | src/components/AppointmentForm.tsx:122-126 | the form after a practitioner change does not depend on the previous slot list, selection or dates, only on the patient, the edit target and the library's copies |
| `AppointmentForm.Step` | src/components/AppointmentForm.tsx:225-304 | of all the form's events, only an arrived practitioner change alters the slot list, and then to the fetched list; no event changes the edit target or the values the library mounted with |
| `AppointmentForm.StepKeepsCopiesEqual` | src/components/AppointmentForm.tsx:225-304 | the library's values and the draft stay equal under every event except the Reset button, a failed practitioner fetch and a successful submit |
| `AppointmentForm.InitialCoherent` | src/components/AppointmentForm.tsx:83-105 | every starting form satisfies the selection/draft/list coherence invariant |
| `AppointmentForm.StepKeepsCoherent` | src/components/AppointmentForm.tsx:121-182 | every event the rendered form can produce keeps the coherence invariant |
| `AppointmentForm.RunKeepsCoherent` | src/components/AppointmentForm.tsx:121-182 | along any run of such events the selection never refers to a slot outside the current list, or to one whose start the draft does not hold |
| `AppointmentList.PractitionerName` | src/components/AppointmentList.tsx:82-90 | the name is "first last" of the first practitioner with the id, and empty when no practitioner has it |
| `AppointmentList.NormaliseSearch` | src/components/AppointmentList.tsx:92-99 | the query is empty exactly when the input is empty or all white space; otherwise it is the lowered input, not trimmed |
| `AppointmentList.NormaliseIgnoresCase` | src/components/AppointmentList.tsx:92-99 | two inputs that differ only in letter case give the same query |
| `AppointmentList.NormaliseIdempotent` | src/components/AppointmentList.tsx:92-99 | normalising an already normalised query returns it unchanged |
| `AppointmentList.NormalisedIsLower` | src/components/AppointmentList.tsx:97 | a normalised query is in lower case |
| `AppointmentList.Matches` | src/components/AppointmentList.tsx:172-181 | an appointment passes exactly when the query is empty, or either id's decimal string starts with it, or it occurs at some position of the lowered practitioner name or of the unlowered date range text |
| `AppointmentList.Displayed` | src/components/AppointmentList.tsx:171-181 | with an empty query every appointment is shown in order; otherwise exactly the appointments whose patient or practitioner id starts with the query, or whose lowered practitioner name or (unlowered) date range contains it, in their original order and multiplicity |
| `AppointmentList.SingletonDisplay` | src/components/AppointmentList.tsx:171-181 | a one-appointment list shows the appointment exactly when it matches |
| `AppointmentList.SearchByIdFindsIt` | src/components/AppointmentList.tsx:173-174 | typing an appointment's full patient id or practitioner id always keeps that appointment on screen |
| `AppointmentList.IdQueryIsItself` | src/components/AppointmentList.tsx:173-174 | typing an id's full decimal string yields that string as the query, and the id starts with it |
| `AppointmentList.LetterQueryMissesIds` | src/components/AppointmentList.tsx:173-174 | a query starting with a letter never matches an id prefix |
| `AppointmentList.DateRangeSearchIsCaseSensitive` | src/components/AppointmentList.tsx:178-181 | as written, a date text "Jan 1" is not found by typing "Jan", while the lowered comparison finds it |
| `AppointmentList.MatchesIgnoringCase` | src/components/AppointmentList.tsx:167-181 | the corrected test is the as-written test run on the lowered date range, and it accepts every appointment the as-written test accepts for a lower-case query |
| `AppointmentList.DisplayedIgnoringCase` | src/components/AppointmentList.tsx:167-181 | the same selection with the date range text lowered as well: all when empty, exact membership and multiplicity, order kept |
| `AppointmentList.SearchIgnoresCase` | src/components/AppointmentList.tsx:167-169 | with the date range lowered, changing the case of the typed text or of the date text never changes what is shown |
| `AppointmentList.Handle` | src/components/AppointmentList.tsx:92-124 | an event sends a request iff it is a delete confirmation, that request deletes exactly the recorded target, and one refresh happens iff it succeeds; and the exact next state of each handler: a search input stores the normalised query; an arrived edit fetch records the target and its slots, opens the popup and sets the edit text, and a failed one changes nothing; marking records the id, opens the dialog and sets the delete text; a successful confirmation closes the dialog and a failed one changes nothing; Back closes the dialog; closing the popup closes it and nothing else |
| `AppointmentList.Settle` | src/components/AppointmentList.tsx:72-77 | when a flag changes and both popup and dialog end up closed, both pending targets are dropped; otherwise the state is left exactly as the handler made it; nothing but the targets is ever touched |
| `AppointmentList.Step` | src/components/AppointmentList.tsx:72-124 | an event sends a request iff it is a delete confirmation, that request deletes exactly the recorded target, one refresh happens iff it succeeds, and a consistent state stays consistent: both closed means nothing pending, an open dialog has a target, an open popup has an appointment; a search input sets the query to the normalised input and changes nothing else; closing the dialog or the popup closes it and leaves the other flag alone |
| `AppointmentList.MarkingSendsNothing` | src/components/AppointmentList.tsx:112-116 | marking for delete records the id, opens the dialog, sets the success text, and sends nothing |
| `AppointmentList.ConfirmDeletesMarked` | src/components/AppointmentList.tsx:118-124 | confirming deletes exactly the marked id; success closes the dialog, asks for one refresh and, with the popup closed, drops the target; failure changes nothing |
| `AppointmentList.EditOpensPopup` | src/components/AppointmentList.tsx:101-110 | once the slots arrive, the appointment becomes the edit target and the popup opens with those slots; a failed fetch changes nothing |
| `AppointmentList.InitialConsistent` | src/components/AppointmentList.tsx:48-58 | the list starts consistent |
| `AppointmentList.ConsistentAlongRun` | src/components/AppointmentList.tsx:72-124 | consistency holds after any run of events |
| `AppointmentList.NoDeleteWithoutConfirm` | src/components/AppointmentList.tsx:112-124 | a run without a confirmation sends no request and asks for no refresh, however often the user marks |
| `AppointmentList.Visible` | src/components/AppointmentList.tsx:171-181 | the list on screen for the current query is an order-keeping selection of the appointments: all of them for an empty query, otherwise exactly those passing the render-time test as written, with the date range not lowered |
| `AppointmentList.TypedSearchIsShown` | src/components/AppointmentList.tsx:92-99 | after the user types into the search box, the screen shows exactly the appointments the as-written test accepts for the normalised input, in order |
| `AppointmentList.EditSubmitsUpdate` | src/components/AppointmentList.tsx:239-245 | the edit popup's form has the appointment as its edit target, holds its dates and the fetched slots, has a selection, and its accepted submit updates that appointment |
| `AppointmentList.EditForm` | src/components/AppointmentList.tsx:239-245 | the popup's form starts from the pending edit target, which it keeps as its own, and the slots fetched for it: both library copies equal the draft; without a target the draft is empty and nothing is selected; with one the draft holds its dates and a selection is made |

## Findings

| source | as written | input that shows it | evidently intended | confidence | as-written member | corrected member |
|---|---|---|---|---|---|---|
| src/components/AppointmentList.tsx:178-181 | the query is lowered but the formatted date range is compared as is | a date range displayed as "Jan 1", search input "Jan" (query "jan"): the appointment is hidden | the comment at lines 167-169 says text is compared in lower case on both sides, so the date range should be lowered too | medium, not executed; it depends on `formatDateRange` writing capital letters, and that function is not part of this model | `AppointmentList.Displayed` | `AppointmentList.DisplayedIgnoringCase` |
| src/components/AppointmentForm.tsx:196-199 | the form library validates its own values, but `handleSubmit` sends `formData`; the Reset button and a successful submit empty `formData` and leave those values valid | edit an appointment with non-zero ids and both dates, press Reset, press Submit: an update of that appointment with all four fields empty is sent | validation gates the data that is sent, so an empty draft is never submitted | medium, not executed; it relies on the library keeping the initial values it mounted with, as it does without `enableReinitialize` | `AppointmentForm.Submit` | `AppointmentForm.SubmitCheckingDraft` |

`AppointmentList.Displayed` models the search as written, and
`AppointmentList.DateRangeSearchIsCaseSensitive` exhibits the input above.
`AppointmentList.DisplayedIgnoringCase` is the proposed fix, and
`AppointmentList.SearchIgnoresCase` proves it case-insensitive on both
sides. `AppointmentList.Visible`, the list on screen, uses the filter as
written.

`AppointmentForm.Submit` models the submit as written.
`AppointmentForm.ResetThenSubmitSendsEmptyUpdate` exhibits the input above,
and `AppointmentForm.SubmitAgainSendsEmptyCreate` a second one: after a
successful create, Submit again. `AppointmentForm.SubmitCheckingDraft` is
the proposed fix. It sends only complete drafts
(`AppointmentForm.InvalidSubmitSendsNothing`), and it sends nothing on both
inputs. `AppointmentForm.AgreeingCopiesSubmitAlike` shows that the two
submits differ only once the copies have parted, and
`AppointmentForm.StepKeepsCopiesEqual` names the three events that part
them. `AppointmentForm.Step`, the form on screen, uses the submit as
written.

## Left out

- Network I/O (`fetch`, axios, `dispatch(getAppointments())`): each call is
  an abstract `Success | Failure` parameter. A requested list refresh is
  counted, not performed.
- `src/pages/api/appointments.ts`: the server routes wrap an ORM that is not
  part of this model. Their outcomes reach the model only as that parameter.
- The race between overlapping availability fetches, and the stale
  `formData` closure after `await`. Both concern async ordering, and each
  handler is modelled as one atomic step.
- `formatDateRange` and `new Date(...)` are a function parameter.
- `toLowerCase`, in `Text.Lower`, maps ASCII letters only. JavaScript also
  lowers other Unicode letters.
- `Text.DecimalString` renders every integer in plain decimal. JavaScript
  switches to exponent notation at 1e21, far beyond any stored id.
- The form library's values are a separate copy in the model. The direct
  writes `values.startDate = ...` (src/components/AppointmentForm.tsx:262-263,
  300-303) mutate the object in place. Before the first library-side
  change, that object may be the very one the library mounted with. The
  model treats those writes as ordinary updates of the working copy, so
  they never alter the mount values that the Reset button restores.
- `setSubmitting`, the touched/error display and the library's
  `handleBlur` are left out. They affect what is shown, not what is sent.
- Only the patient select is wired to `handleStateChange`
  (src/components/AppointmentForm.tsx:225-228). The practitioner select
  calls `getAvailabilities` and the library's `handleChange` instead
  (258-264). The date select has its own handler. `AppointmentForm.Step`
  follows that wiring. `AppointmentForm.EditField` models the handler
  itself, which accepts any field name.
- AppointmentForm.IdField: in edit mode the component keeps the numeric id
  (`3 || ''` is `3`), not its decimal string. The model stores the string,
  and `ParseDecimal` reads it back to the same id. The selects show either
  form as the same option text, and the server reads both with `parseInt`
  (src/pages/api/appointments.ts:21-22, 41-42), so the two arrive as the
  same id.
- `AppointmentForm.Run` stops at the first event the rendered form could not
  produce, such as an index outside the list. The component never receives
  such an event.
- The snackbar effect (src/components/AppointmentList.tsx:64-70) depends on
  when React runs effects. Closing the popup is an explicit `PopupClosed`
  event instead.
- The `index` field the list adds to the edit target
  (`{ ...appointment, index }`) is dropped. The form never reads it.
- `AppointmentList.EditForm` assumes the popup mounts a fresh form each time
  it opens. The popup component is not part of this model.
- The success snackbar text is recorded in the list state. The snackbar
  itself, the dialogs and all styling are pure UI.

=== FILE: appointment_form.dfy ===
/** The appointment form. It keeps two copies of the appointment being
    edited: the component's own draft (`formData`), which is what a submit
    sends, and the form library's working values, which are what its
    validation reads. Beside them it holds the values the library captured
    when it mounted, the index of the chosen availability slot, and the
    availability list of the chosen practitioner. Every handler of the
    component is a function from the old form and its input to the new
    form, total on the inputs the rendered form offers. */
module AppointmentForm {
  import opened Records
  import opened Text
  import opened Seqs

  datatype Field = PatientId | PractitionerId | StartDate | EndDate

  /** The selected slot index. It is `null` before anything happened, `''`
      after a reset, a practitioner change or a pick of the blank option, and
      a number after a pick or after the edit-mode search (where -1 means
      that no slot matched). */
  datatype Selection = Unchosen | Cleared | At(index: int)

  /** The option picked in the date select: the blank option or the option
      rendered for slot `index`. */
  datatype SlotChoice = Blank | Index(index: nat)

  /** `draft` is `formData`; `values` is the form library's working copy and
      `mountValues` the initial values it was given on its first render.
      `editTarget` is the appointment being edited, if any: a property the
      form receives once and keeps for its whole life. */
  datatype Form = Form(
    editTarget: Option<Appointment>,
    draft: Draft,
    values: Draft,
    mountValues: Draft,
    selection: Selection,
    slots: seq<Slot>)

  function Get(d: Draft, f: Field): string {
    match f
    case PatientId => d.patientId
    case PractitionerId => d.practitionerId
    case StartDate => d.startDate
    case EndDate => d.endDate
  }

  /** The draft with the field `field` holding `value`. */
  function SetField(d: Draft, field: Field, value: string): (r: Draft)
    ensures Get(r, field) == value
    ensures forall other :: other != field ==> Get(r, other) == Get(d, other)
  {
    match field
    case PatientId => d.(patientId := value)
    case PractitionerId => d.(practitionerId := value)
    case StartDate => d.(startDate := value)
    case EndDate => d.(endDate := value)
  }

  /** The draft field `appointmentToEdit?.<field> || ''` yields for a numeric
      id: 0 is falsy and gives the empty string. */
  function IdField(id: int): (s: string)
    ensures s == [] <==> id == 0
    ensures id != 0 ==> ParseDecimal(s) == id
  {
    DecimalRoundTrip(id);
    if id == 0 then "" else DecimalString(id)
  }

  /** The draft the component starts from: the edited appointment's fields, or
      four empty strings when it creates a new one. */
  function InitialDraft(editTarget: Option<Appointment>): (d: Draft)
    ensures editTarget.None? ==> d == EmptyDraft
    ensures editTarget.Some? ==>
      && d.startDate == editTarget.value.startDate
      && d.endDate == editTarget.value.endDate
      && (d.patientId == [] <==> editTarget.value.patientId == 0)
      && (d.patientId != [] ==> ParseDecimal(d.patientId) == editTarget.value.patientId)
      && (d.practitionerId == [] <==> editTarget.value.practitionerId == 0)
      && (d.practitionerId != [] ==> ParseDecimal(d.practitionerId) == editTarget.value.practitionerId)
  {
    match editTarget
    case None => EmptyDraft
    case Some(a) => Draft(IdField(a.patientId), IdField(a.practitionerId), a.startDate, a.endDate)
  }

  /** The form after its first render: the initial draft, handed to the form
      library as its initial values too, the initial availabilities and, in
      edit mode only, the position of the first slot whose start equals the
      draft's start (-1 when there is none). */
  function Initial(editTarget: Option<Appointment>, initialSlots: seq<Slot>): (f: Form)
    ensures f.editTarget == editTarget
    ensures f.draft == InitialDraft(editTarget)
    ensures f.values == f.draft && f.mountValues == f.draft
    ensures f.slots == initialSlots
    ensures editTarget.None? ==> f.selection == Unchosen
    ensures editTarget.Some? ==> f.selection.At?
    ensures f.selection.At? ==>
      && -1 <= f.selection.index < |initialSlots|
      && (f.selection.index == -1 <==>
            forall j :: 0 <= j < |initialSlots| ==> initialSlots[j].startDate != f.draft.startDate)
      && (0 <= f.selection.index ==>
            && initialSlots[f.selection.index].startDate == f.draft.startDate
            && forall j :: 0 <= j < f.selection.index ==> initialSlots[j].startDate != f.draft.startDate)
  {
    var d := InitialDraft(editTarget);
    var sel :=
      if editTarget.Some? then At(FindIndex(initialSlots, (s: Slot) => s.startDate == d.startDate))
      else Unchosen;
    Form(editTarget, d, d, d, sel, initialSlots)
  }

  // ---------------------------------------------------------------------
  // The component's handlers: they write the draft only

  /** `handleStateChange`: the input named `field` now holds `value`. */
  function EditField(f: Form, field: Field, value: string): (r: Form)
    ensures Get(r.draft, field) == value
    ensures forall other :: other != field ==> Get(r.draft, other) == Get(f.draft, other)
    ensures r.values == f.values && r.mountValues == f.mountValues
    ensures r.selection == f.selection && r.slots == f.slots
  {
    f.(draft := SetField(f.draft, field, value))
  }

  /** `getAvailabilities`: once the chosen practitioner's slots arrive they
      replace the list, the practitioner is recorded and the dates and the
      selection are cleared. If the request fails, nothing changes. */
  function ChangePractitioner(f: Form, practitionerId: string, fetched: Response<seq<Slot>>): (r: Form)
    ensures fetched.Failure? ==> r == f
    ensures fetched.Success? ==>
      && r.slots == fetched.payload
      && r.draft.practitionerId == practitionerId
      && r.draft.startDate == "" && r.draft.endDate == ""
      && r.draft.patientId == f.draft.patientId
      && r.selection == Cleared
      && r.values == f.values && r.mountValues == f.mountValues
  {
    match fetched
    case Failure => f
    case Success(slots) =>
      f.(draft := f.draft.(practitionerId := practitionerId, startDate := "", endDate := ""),
         selection := Cleared, slots := slots)
  }

  /** An index is offered only for the slots currently listed. */
  predicate CanPick(f: Form, choice: SlotChoice) {
    choice.Index? ==> choice.index < |f.slots|
  }

  /** `handleDateChange`: a slot's option copies that slot's start and end
      into the draft; the blank option clears both. */
  function PickSlot(f: Form, choice: SlotChoice): (r: Form)
    requires CanPick(f, choice)
    ensures r.slots == f.slots
    ensures r.values == f.values && r.mountValues == f.mountValues
    ensures r.draft.patientId == f.draft.patientId
    ensures r.draft.practitionerId == f.draft.practitionerId
    ensures choice.Blank? ==> r.selection == Cleared && r.draft.startDate == "" && r.draft.endDate == ""
    ensures choice.Index? ==>
      && r.selection == At(choice.index)
      && r.draft.startDate == f.slots[choice.index].startDate
      && r.draft.endDate == f.slots[choice.index].endDate
  {
    match choice
    case Blank =>
      f.(draft := f.draft.(startDate := "", endDate := ""), selection := Cleared)
    case Index(i) =>
      f.(draft := f.draft.(startDate := f.slots[i].startDate, endDate := f.slots[i].endDate), selection := At(i))
  }

  /** `handleStateReset`: every field of the draft emptied and the selection
      cleared; the availability list is kept, and the form library's values
      are not touched. */
  function Reset(f: Form): (r: Form)
    ensures forall field :: Get(r.draft, field) == ""
    ensures r.selection == Cleared
    ensures r.slots == f.slots
    ensures r.values == f.values && r.mountValues == f.mountValues
  {
    f.(draft := EmptyDraft, selection := Cleared)
  }

  // ---------------------------------------------------------------------
  // The inputs' change handlers: what each input writes to both copies

  /** The patient select: the library's `handleChange` and `handleStateChange`
      both record the patient. */
  function SelectPatient(f: Form, patientId: string): (r: Form)
    ensures r.draft == f.draft.(patientId := patientId)
    ensures r.values == f.values.(patientId := patientId)
    ensures r.mountValues == f.mountValues && r.selection == f.selection && r.slots == f.slots
  {
    EditField(f, PatientId, patientId).(values := SetField(f.values, PatientId, patientId))
  }

  /** The practitioner select: the library's values take the practitioner and
      lose their dates at once, whether or not the availability fetch it
      starts succeeds; the draft follows only when the fetch arrives. */
  function SelectPractitioner(f: Form, practitionerId: string, fetched: Response<seq<Slot>>): (r: Form)
    ensures r.values == f.values.(practitionerId := practitionerId, startDate := "", endDate := "")
    ensures r.(values := f.values) == ChangePractitioner(f, practitionerId, fetched)
  {
    ChangePractitioner(f, practitionerId, fetched)
      .(values := f.values.(practitionerId := practitionerId, startDate := "", endDate := ""))
  }

  /** The date select: `handleDateChange`, then the same two dates written
      into the library's values. */
  function SelectSlot(f: Form, choice: SlotChoice): (r: Form)
    requires CanPick(f, choice)
    ensures r.values == f.values.(startDate := r.draft.startDate, endDate := r.draft.endDate)
    ensures r.(values := f.values) == PickSlot(f, choice)
  {
    var g := PickSlot(f, choice);
    g.(values := f.values.(startDate := g.draft.startDate, endDate := g.draft.endDate))
  }

  /** The Reset button: `handleStateReset` empties the draft, and the
      library's `handleReset` puts its values back to those it mounted with. */
  function PressReset(f: Form): (r: Form)
    ensures r.draft == EmptyDraft && r.selection == Cleared
    ensures r.values == f.mountValues && r.mountValues == f.mountValues
    ensures r.slots == f.slots
  {
    Reset(f).(values := f.mountValues)
  }

  // ---------------------------------------------------------------------
  // Validation and submit

  /** The validation schema: the set of fields reported as required, which
      are exactly the empty ones. */
  function MissingFields(d: Draft): (missing: set<Field>)
    ensures forall field :: field in missing <==> Get(d, field) == ""
  {
    (if d.patientId == "" then {PatientId} else {})
    + (if d.practitionerId == "" then {PractitionerId} else {})
    + (if d.startDate == "" then {StartDate} else {})
    + (if d.endDate == "" then {EndDate} else {})
  }

  /** The library's verdict: no field is reported as required. */
  predicate IsValid(d: Draft): (ok: bool)
    ensures ok <==> forall field :: Get(d, field) != ""
  {
    MissingFields(d) == {}
  }

  /** What a submit attempt produced: the new form, the request sent (none
      when validation rejected the form), how many list refreshes were asked
      for, and whether the form showed its own success message. */
  datatype Submission = Submission(form: Form, request: Option<Request>, refreshes: nat, notified: bool)

  /** The request `handleSubmit` sends for `body`: an update of the edited
      appointment when there is one, a create otherwise. */
  function RequestFor(editTarget: Option<Appointment>, body: Draft): (r: Request)
    ensures r.Update? <==> editTarget.Some?
    ensures r.Update? ==> r.appointmentId == editTarget.value.id && r.body == body
    ensures r.Create? ==> r.body == body
  {
    match editTarget
    case Some(a) => Update(a.id, body)
    case None => Create(body)
  }

  /** The submit as written: the library validates its own values, and only
      then `handleSubmit` runs and sends the draft. Success empties the draft
      and asks for one refresh of the list, and leaves the library's values
      as they were; failure is swallowed and leaves the form as it was. */
  function Submit(f: Form, outcome: Response<()>): (s: Submission)
    ensures s.request.Some? <==> IsValid(f.values)
    ensures s.request.Some? ==> s.request.value == RequestFor(f.editTarget, f.draft)
    ensures s.refreshes == (if IsValid(f.values) && outcome.Success? then 1 else 0)
    ensures s.refreshes == 1 ==> s.form == Reset(f) && s.form.values == f.values
    ensures s.refreshes == 0 ==> s.form == f
    ensures s.notified <==> s.refreshes == 1 && f.editTarget.None?
  {
    if !IsValid(f.values) then
      Submission(f, None, 0, false)
    else
      var request := RequestFor(f.editTarget, f.draft);
      match outcome
      case Success(_) => Submission(Reset(f), Some(request), 1, f.editTarget.None?)
      case Failure => Submission(f, Some(request), 0, false)
  }

  /** The submit with the validation applied to what is sent: a request goes
      out only when the draft itself is complete. */
  function SubmitCheckingDraft(f: Form, outcome: Response<()>): (s: Submission)
    ensures s.request.Some? <==> IsValid(f.draft)
    ensures s.request.Some? ==> s.request.value == RequestFor(f.editTarget, f.draft) && IsValid(s.request.value.body)
    ensures s.refreshes == (if IsValid(f.draft) && outcome.Success? then 1 else 0)
    ensures s.refreshes == 1 ==> s.form == Reset(f)
    ensures s.refreshes == 0 ==> s.form == f
    ensures s.notified <==> s.refreshes == 1 && f.editTarget.None?
  {
    if !IsValid(f.draft) then
      Submission(f, None, 0, false)
    else
      var request := RequestFor(f.editTarget, f.draft);
      match outcome
      case Success(_) => Submission(Reset(f), Some(request), 1, f.editTarget.None?)
      case Failure => Submission(f, Some(request), 0, false)
  }

  // ---------------------------------------------------------------------
  // Properties of the transitions

  /** The validation gate is a presence check on each of the four fields and
      nothing more. */
  lemma ValidIffAllPresent(d: Draft)
    ensures IsValid(d) <==> d.patientId != "" && d.practitionerId != "" && d.startDate != "" && d.endDate != ""
  {
    if !IsValid(d) {
      var field :| field in MissingFields(d);
    }
  }

  /** Typing the old value back into a field restores the form exactly. */
  lemma EditFieldUndo(f: Form, field: Field, value: string)
    ensures EditField(EditField(f, field, value), field, Get(f.draft, field)) == f
  {
  }

  /** With the check on the draft, a submit with any required field of the
      draft empty sends nothing and changes nothing. */
  lemma InvalidSubmitSendsNothing(f: Form, outcome: Response<()>)
    requires f.draft.patientId == "" || f.draft.practitionerId == "" || f.draft.startDate == "" || f.draft.endDate == ""
    ensures SubmitCheckingDraft(f, outcome) == Submission(f, None, 0, false)
  {
    ValidIffAllPresent(f.draft);
  }

  /** As written, a submit with any required field of the library's values
      empty sends nothing and changes nothing, whatever the draft holds. */
  lemma InvalidValuesSendNothing(f: Form, outcome: Response<()>)
    requires f.values.patientId == "" || f.values.practitionerId == "" || f.values.startDate == "" || f.values.endDate == ""
    ensures Submit(f, outcome) == Submission(f, None, 0, false)
  {
    ValidIffAllPresent(f.values);
  }

  /** While the two copies agree, the submit as written behaves exactly like
      the one that checks the draft. */
  lemma AgreeingCopiesSubmitAlike(f: Form, outcome: Response<()>)
    requires f.values == f.draft
    ensures Submit(f, outcome) == SubmitCheckingDraft(f, outcome)
  {
  }

  /** Resetting is idempotent: one reset already reaches the fixed point, for
      the draft alone and for the Reset button. */
  lemma ResetIdempotent(f: Form)
    ensures Reset(Reset(f)) == Reset(f)
    ensures Reset(f).draft == EmptyDraft
    ensures PressReset(PressReset(f)) == PressReset(f)
  {
  }

  /** After a practitioner change the selection is cleared, so a later pick
      reads the freshly fetched list and nothing of the list it replaced. */
  lemma PickAfterPractitionerChange(f: Form, practitionerId: string, slots: seq<Slot>, i: nat)
    requires i < |slots|
    ensures var g := ChangePractitioner(f, practitionerId, Success(slots));
      && g.selection == Cleared
      && CanPick(g, Index(i))
      && PickSlot(g, Index(i)).draft
         == Draft(f.draft.patientId, practitionerId, slots[i].startDate, slots[i].endDate)
  {
  }

  /** The result of a practitioner change does not depend on the slot list,
      the selection or the dates it replaces. */
  lemma PractitionerChangeForgetsOldList(f: Form, f': Form, practitionerId: string, slots: seq<Slot>)
    requires f.draft.patientId == f'.draft.patientId
    requires f.editTarget == f'.editTarget && f.values == f'.values && f.mountValues == f'.mountValues
    ensures ChangePractitioner(f, practitionerId, Success(slots)) == ChangePractitioner(f', practitionerId, Success(slots))
  {
  }

  // ---------------------------------------------------------------------
  // Where the two copies part

  /** In the edit popup, pressing Reset and then Submit sends an update of the
      edited appointment with every field empty: the library's values are
      back to the appointment's and pass validation, while the draft that is
      sent was emptied. Checking the draft sends nothing. */
  lemma ResetThenSubmitSendsEmptyUpdate(a: Appointment, slots: seq<Slot>, outcome: Response<()>)
    requires a.patientId != 0 && a.practitionerId != 0 && a.startDate != "" && a.endDate != ""
    ensures var f := PressReset(Initial(Some(a), slots));
      && f.draft == EmptyDraft
      && Submit(f, outcome).request == Some(Update(a.id, EmptyDraft))
      && SubmitCheckingDraft(f, outcome).request == None
  {
    var f := PressReset(Initial(Some(a), slots));
    ValidIffAllPresent(f.values);
    ValidIffAllPresent(f.draft);
  }

  /** After a successful create, submitting again sends a create with every
      field empty: the success emptied the draft and left the library's
      values valid. Checking the draft sends nothing. */
  lemma SubmitAgainSendsEmptyCreate(f: Form, outcome: Response<()>)
    requires f.editTarget.None? && IsValid(f.values)
    ensures var g := Submit(f, Success(())).form;
      && g.draft == EmptyDraft
      && Submit(g, outcome).request == Some(Create(EmptyDraft))
      && SubmitCheckingDraft(g, outcome).request == None
  {
    var g := Submit(f, Success(())).form;
    ValidIffAllPresent(g.draft);
  }

  // ---------------------------------------------------------------------
  // The selection never refers to a stale list

  /** The selection agrees with the draft and with the list on screen: a
      chosen index lies inside the current list and names the slot whose
      start the draft holds; no selection means no dates. */
  predicate Coherent(f: Form) {
    match f.selection
    case At(i) => -1 <= i < |f.slots| && (0 <= i ==> f.draft.startDate == f.slots[i].startDate)
    case _ => f.draft.startDate == "" && f.draft.endDate == ""
  }

  /** The user actions the form reacts to, with the outcome of the network
      call each one makes. */
  datatype Event =
    | PatientPicked(patientId: string)
    | PractitionerPicked(practitionerId: string, fetched: Response<seq<Slot>>)
    | SlotPicked(choice: SlotChoice)
    | ResetPressed
    | SubmitPressed(outcome: Response<()>)

  /** The events the rendered form can produce: slot options exist only for
      the current list. */
  predicate Offered(f: Form, e: Event) {
    e.SlotPicked? ==> CanPick(f, e.choice)
  }

  function Step(f: Form, e: Event): (r: Form)
    requires Offered(f, e)
    ensures r.slots == f.slots || (e.PractitionerPicked? && e.fetched.Success? && r.slots == e.fetched.payload)
    ensures r.editTarget == f.editTarget && r.mountValues == f.mountValues
  {
    match e
    case PatientPicked(p) => SelectPatient(f, p)
    case PractitionerPicked(p, fetched) => SelectPractitioner(f, p, fetched)
    case SlotPicked(choice) => SelectSlot(f, choice)
    case ResetPressed => PressReset(f)
    case SubmitPressed(outcome) => Submit(f, outcome).form
  }

  /** The copies stay equal under every event except three: the Reset button,
      a practitioner change whose fetch fails, and a submit that succeeds. */
  lemma StepKeepsCopiesEqual(f: Form, e: Event)
    requires f.values == f.draft && Offered(f, e)
    requires !e.ResetPressed?
    requires e.PractitionerPicked? ==> e.fetched.Success?
    requires e.SubmitPressed? ==> !(IsValid(f.values) && e.outcome.Success?)
    ensures Step(f, e).values == Step(f, e).draft
  {
  }

  /** Every form the component starts from is coherent. */
  lemma InitialCoherent(editTarget: Option<Appointment>, initialSlots: seq<Slot>)
    ensures Coherent(Initial(editTarget, initialSlots))
  {
  }

  lemma StepKeepsCoherent(f: Form, e: Event)
    requires Coherent(f) && Offered(f, e)
    ensures Coherent(Step(f, e))
  {
  }

  /** Running a sequence of offered events. */
  function Run(f: Form, events: seq<Event>): Form
    decreases |events|
  {
    if events == [] || !Offered(f, events[0]) then f else Run(Step(f, events[0]), events[1..])
  }

  /** However long the session, the selection stays coherent with the draft
      and the list currently shown. */
  lemma {:induction false} RunKeepsCoherent(f: Form, events: seq<Event>)
    requires Coherent(f)
    ensures Coherent(Run(f, events))
    decreases |events|
  {
    if events != [] && Offered(f, events[0]) {
      StepKeepsCoherent(f, events[0]);
      RunKeepsCoherent(Step(f, events[0]), events[1..]);
    }
  }
}

=== FILE: appointment_list.dfy ===
/** The appointment list: the client-side search over the full list of
    appointments, the practitioner-name lookup it uses, and the bookkeeping
    of the edit popup and the two-phase delete. */
module AppointmentList {
  import opened Records
  import opened Text
  import opened Seqs
  import AppointmentForm

  // ---------------------------------------------------------------------
  // Search

  /** `getPractitionerName`: "first last" of the first practitioner with the
      given id, or the empty string when there is none. */
  function PractitionerName(practitioners: seq<Practitioner>, id: int): (name: string)
    ensures (forall j :: 0 <= j < |practitioners| ==> practitioners[j].id != id) ==> name == ""
    ensures forall k :: 0 <= k < |practitioners| && practitioners[k].id == id
                        && (forall j :: 0 <= j < k ==> practitioners[j].id != id) ==>
              name == practitioners[k].firstName + " " + practitioners[k].lastName
  {
    var k := FindIndex(practitioners, (p: Practitioner) => p.id == id);
    if k < 0 then "" else practitioners[k].firstName + " " + practitioners[k].lastName
  }

  /** `handleSearchInput`: a blank input (empty or only white space) becomes
      the empty query; any other input is lowered, but not trimmed. */
  function NormaliseSearch(raw: string): (q: string)
    ensures q == [] <==> AllSpace(raw)
    ensures q != [] ==> q == LowerString(raw)
  {
    if raw == [] || Trim(raw) == [] then [] else LowerString(raw)
  }

  /** The query does not depend on the case of what was typed. */
  lemma NormaliseIgnoresCase(raw: string, raw': string)
    requires LowerString(raw) == LowerString(raw')
    ensures NormaliseSearch(raw) == NormaliseSearch(raw')
  {
    assert AllSpace(raw) <==> AllSpace(raw') by {
      assert |raw| == |raw'|;
      forall i | 0 <= i < |raw| ensures IsSpace(raw[i]) <==> IsSpace(raw'[i]) {
        LowerFacts(raw[i]);
        LowerFacts(raw'[i]);
        assert Lower(raw[i]) == LowerString(raw)[i] == LowerString(raw')[i] == Lower(raw'[i]);
      }
    }
  }

  /** Normalising a normalised query changes nothing. */
  lemma NormaliseIdempotent(raw: string)
    ensures NormaliseSearch(NormaliseSearch(raw)) == NormaliseSearch(raw)
  {
    var q := NormaliseSearch(raw);
    if q != [] {
      LowerStringIdempotent(raw);
      assert !AllSpace(q) by {
        var i :| 0 <= i < |raw| && !IsSpace(raw[i]);
        LowerFacts(raw[i]);
        assert !IsSpace(q[i]);
      }
    }
  }

  /** A normalised query is already in lower case. */
  lemma NormalisedIsLower(raw: string)
    ensures LowerString(NormaliseSearch(raw)) == NormaliseSearch(raw)
  {
    LowerStringIdempotent(raw);
  }

  /** The render-time test of one appointment against the query, as the list
      applies it: an empty query shows everything; otherwise either id must
      start with the query, or the lowered practitioner name or the date
      range text must contain it. The date range text is not lowered. */
  predicate Matches(a: Appointment, q: string, practitioners: seq<Practitioner>, fmt: RangeFormatter): (b: bool)
    ensures b <==>
      var name := LowerString(PractitionerName(practitioners, a.practitionerId));
      var range := fmt(a.startDate, a.endDate);
      || q == []
      || StartsWith(DecimalString(a.patientId), q)
      || StartsWith(DecimalString(a.practitionerId), q)
      || (exists i: nat :: i <= |name| && OccursAt(name, q, i))
      || (exists i: nat :: i <= |range| && OccursAt(range, q, i))
  {
    || q == []
    || StartsWith(DecimalString(a.patientId), q)
    || StartsWith(DecimalString(a.practitionerId), q)
    || Contains(LowerString(PractitionerName(practitioners, a.practitionerId)), q)
    || Contains(fmt(a.startDate, a.endDate), q)
  }

  /** The appointments the list renders for the query `q`. */
  function Displayed(appointments: seq<Appointment>, q: string, practitioners: seq<Practitioner>, fmt: RangeFormatter)
    : (shown: seq<Appointment>)
    ensures q == [] ==> shown == appointments
    ensures forall a :: a in shown <==> a in appointments && Matches(a, q, practitioners, fmt)
    ensures forall a :: multiset(shown)[a] == if Matches(a, q, practitioners, fmt) then multiset(appointments)[a] else 0
    ensures IsSubsequence(shown, appointments)
  {
    var keep := (a: Appointment) => Matches(a, q, practitioners, fmt);
    FilterIsSubsequence(appointments, keep);
    if q == [] then FilterKeepingAll(appointments, keep); Filter(appointments, keep)
    else Filter(appointments, keep)
  }

  /** The same test with the date range text lowered too, as the comment
      above the render map says both sides of a text comparison are. */
  predicate MatchesIgnoringCase(a: Appointment, q: string, practitioners: seq<Practitioner>, fmt: RangeFormatter): (b: bool)
    ensures b <==> Matches(a, q, practitioners, (start: string, end: string) => LowerString(fmt(start, end)))
    ensures LowerString(q) == q && Matches(a, q, practitioners, fmt) ==> b
  {
    ContainsLowered(fmt(a.startDate, a.endDate), q);
    || q == []
    || StartsWith(DecimalString(a.patientId), q)
    || StartsWith(DecimalString(a.practitionerId), q)
    || Contains(LowerString(PractitionerName(practitioners, a.practitionerId)), q)
    || Contains(LowerString(fmt(a.startDate, a.endDate)), q)
  }

  function DisplayedIgnoringCase(appointments: seq<Appointment>, q: string, practitioners: seq<Practitioner>, fmt: RangeFormatter)
    : (shown: seq<Appointment>)
    ensures q == [] ==> shown == appointments
    ensures forall a :: a in shown <==> a in appointments && MatchesIgnoringCase(a, q, practitioners, fmt)
    ensures forall a :: multiset(shown)[a] == if MatchesIgnoringCase(a, q, practitioners, fmt) then multiset(appointments)[a] else 0
    ensures IsSubsequence(shown, appointments)
  {
    var keep := (a: Appointment) => MatchesIgnoringCase(a, q, practitioners, fmt);
    FilterIsSubsequence(appointments, keep);
    if q == [] then FilterKeepingAll(appointments, keep); Filter(appointments, keep)
    else Filter(appointments, keep)
  }

  /** Two formatters that produce the same text up to letter case. */
  predicate SameUpToCase(fmt: RangeFormatter, fmt': RangeFormatter, appointments: seq<Appointment>) {
    forall i :: 0 <= i < |appointments| ==>
      LowerString(fmt(appointments[i].startDate, appointments[i].endDate))
      == LowerString(fmt'(appointments[i].startDate, appointments[i].endDate))
  }

  /** With the date range lowered, the search is case-insensitive on both
      sides: typing in another case, or a date text in another case, shows
      the same appointments. */
  lemma SearchIgnoresCase(
    appointments: seq<Appointment>, raw: string, raw': string, practitioners: seq<Practitioner>,
    fmt: RangeFormatter, fmt': RangeFormatter)
    requires LowerString(raw) == LowerString(raw')
    requires SameUpToCase(fmt, fmt', appointments)
    ensures DisplayedIgnoringCase(appointments, NormaliseSearch(raw), practitioners, fmt)
         == DisplayedIgnoringCase(appointments, NormaliseSearch(raw'), practitioners, fmt')
  {
    NormaliseIgnoresCase(raw, raw');
    var q := NormaliseSearch(raw);
    FilterAgreeing(appointments,
      (a: Appointment) => MatchesIgnoringCase(a, q, practitioners, fmt),
      (a: Appointment) => MatchesIgnoringCase(a, q, practitioners, fmt'));
  }

  /** A query whose first character appears nowhere in `s` does not occur in it. */
  lemma AbsentFirstCharacter(s: string, sub: string)
    requires sub != [] && forall k :: 0 <= k < |s| ==> s[k] != sub[0]
    ensures !Contains(s, sub)
  {
    if i: nat :| i <= |s| && OccursAt(s, sub, i) {
      assert s[i] == s[i..i + |sub|][0] == sub[0];
    }
  }

  lemma JanIsNormalisedToLowerCase()
    ensures NormaliseSearch("Jan") == "jan"
  {
    assert !IsSpace("Jan"[0]);
    assert LowerString("Jan") == "jan";
  }

  /** A query that starts with a letter never matches an id prefix. */
  lemma LetterQueryMissesIds(n: int, q: string)
    requires q != [] && 'a' <= q[0] <= 'z'
    ensures !StartsWith(DecimalString(n), q)
  {
  }

  lemma JanDateFacts()
    ensures !Contains("Jan 1", "jan")
    ensures Contains(LowerString("Jan 1"), "jan")
  {
    AbsentFirstCharacter("Jan 1", "jan");
    assert LowerString("Jan 1") == "jan 1";
    assert OccursAt("jan 1", "jan", 0);
  }

  /** As written, the search is not case-insensitive on the date range: with
      a formatter that writes "Jan 1", typing "Jan" hides the appointment,
      while the lowered comparison shows it. */
  lemma DateRangeSearchIsCaseSensitive()
    ensures var a := Appointment(1, 1, 2, "2024-01-01T09:00", "2024-01-01T09:30");
            var fmt := (start: string, end: string) => "Jan 1";
            && Displayed([a], NormaliseSearch("Jan"), [], fmt) == []
            && DisplayedIgnoringCase([a], NormaliseSearch("Jan"), [], fmt) == [a]
  {
    var a := Appointment(1, 1, 2, "2024-01-01T09:00", "2024-01-01T09:30");
    var fmt := (start: string, end: string) => "Jan 1";
    JanIsNormalisedToLowerCase();
    var q := "jan";
    LetterQueryMissesIds(1, q);
    LetterQueryMissesIds(2, q);
    assert PractitionerName([], 2) == "";
    AbsentFirstCharacter(LowerString(""), q);
    JanDateFacts();
    assert fmt(a.startDate, a.endDate) == "Jan 1";
    assert !Matches(a, q, [], fmt);
    assert MatchesIgnoringCase(a, q, [], fmt);
    SingletonDisplay(a, q, [], fmt);
  }

  /** A one-appointment list shows its appointment exactly when it matches. */
  lemma SingletonDisplay(a: Appointment, q: string, practitioners: seq<Practitioner>, fmt: RangeFormatter)
    ensures Displayed([a], q, practitioners, fmt) == if Matches(a, q, practitioners, fmt) then [a] else []
    ensures DisplayedIgnoringCase([a], q, practitioners, fmt) == if MatchesIgnoringCase(a, q, practitioners, fmt) then [a] else []
  {
    assert [a][1..] == [];
  }

  /** Typing an id's full decimal string yields that string as the query, and
      the id starts with it. */
  lemma IdQueryIsItself(n: int)
    ensures NormaliseSearch(DecimalString(n)) == DecimalString(n)
    ensures StartsWith(DecimalString(n), NormaliseSearch(DecimalString(n)))
  {
    DecimalStringIsLowerAndVisible(n);
  }

  /** Typing an appointment's full patient id, or its full practitioner id,
      always keeps that appointment on screen. */
  lemma SearchByIdFindsIt(appointments: seq<Appointment>, i: nat, practitioners: seq<Practitioner>, fmt: RangeFormatter)
    requires i < |appointments|
    ensures appointments[i] in Displayed(appointments, NormaliseSearch(DecimalString(appointments[i].patientId)), practitioners, fmt)
    ensures appointments[i] in Displayed(appointments, NormaliseSearch(DecimalString(appointments[i].practitionerId)), practitioners, fmt)
    ensures appointments[i] in DisplayedIgnoringCase(appointments, NormaliseSearch(DecimalString(appointments[i].patientId)), practitioners, fmt)
    ensures appointments[i] in DisplayedIgnoringCase(appointments, NormaliseSearch(DecimalString(appointments[i].practitionerId)), practitioners, fmt)
  {
    var a := appointments[i];
    var byPatient := NormaliseSearch(DecimalString(a.patientId));
    var byPractitioner := NormaliseSearch(DecimalString(a.practitionerId));
    IdQueryIsItself(a.patientId);
    IdQueryIsItself(a.practitionerId);
    assert Matches(a, byPatient, practitioners, fmt);
    assert Matches(a, byPractitioner, practitioners, fmt);
    assert MatchesIgnoringCase(a, byPatient, practitioners, fmt);
    assert MatchesIgnoringCase(a, byPractitioner, practitioners, fmt);
  }

  // ---------------------------------------------------------------------
  // Edit and delete bookkeeping

  /** The list component's own state: the normalised query, whether the edit
      popup and the delete dialog are open, the pending edit target with the
      slots fetched for it, the pending delete target, and the success text
      the snackbar will show. */
  datatype ListState = ListState(
    search: string,
    popupOpen: bool,
    deleteDialogOpen: bool,
    editTarget: Option<Appointment>,
    editSlots: seq<Slot>,
    deleteTarget: Option<int>,
    successText: string)

  const InitialList := ListState("", false, false, None, [], None, "")

  const EditedText := "Appointment details edited successfully"
  const DeletedText := "Appointment deleted successfully"

  /** What the user does on the list, with the outcome of the network call
      each action makes. */
  datatype ListEvent =
    | SearchInput(raw: string)
    | EditClicked(appointment: Appointment, fetched: Response<seq<Slot>>)
    | DeleteClicked(id: int)
    | DeleteConfirmed(outcome: Response<()>)
    | DeleteDialogClosed
    | PopupClosed

  /** A state together with the mutating request the step sent and the
      number of list refreshes it asked for. */
  datatype ListStep = ListStep(state: ListState, request: Option<Request>, refreshes: nat)

  /** The handler run for one event, before the effects react. */
  function Handle(s: ListState, e: ListEvent): (r: ListStep)
    ensures r.request.Some? <==> e.DeleteConfirmed?
    ensures e.DeleteConfirmed? ==> r.request == Some(Delete(s.deleteTarget))
    ensures r.refreshes == (if e.DeleteConfirmed? && e.outcome.Success? then 1 else 0)
    ensures e.SearchInput? ==> r.state == s.(search := NormaliseSearch(e.raw))
    ensures e.EditClicked? && e.fetched.Failure? ==> r.state == s
    ensures e.EditClicked? && e.fetched.Success? ==>
      r.state == s.(editTarget := Some(e.appointment), editSlots := e.fetched.payload, popupOpen := true, successText := EditedText)
    ensures e.DeleteClicked? ==> r.state == s.(deleteTarget := Some(e.id), deleteDialogOpen := true, successText := DeletedText)
    ensures e.DeleteConfirmed? ==> r.state == if e.outcome.Success? then s.(deleteDialogOpen := false) else s
    ensures e.DeleteDialogClosed? ==> r.state == s.(deleteDialogOpen := false)
    ensures e.PopupClosed? ==> r.state == s.(popupOpen := false)
  {
    match e
    case SearchInput(raw) => ListStep(s.(search := NormaliseSearch(raw)), None, 0)
    case EditClicked(a, fetched) =>
      (match fetched
       case Failure => ListStep(s, None, 0)
       case Success(slots) =>
         ListStep(s.(editTarget := Some(a), editSlots := slots, popupOpen := true, successText := EditedText), None, 0))
    case DeleteClicked(id) =>
      ListStep(s.(deleteTarget := Some(id), deleteDialogOpen := true, successText := DeletedText), None, 0)
    case DeleteConfirmed(outcome) =>
      (match outcome
       case Failure => ListStep(s, Some(Delete(s.deleteTarget)), 0)
       case Success(_) => ListStep(s.(deleteDialogOpen := false), Some(Delete(s.deleteTarget)), 1))
    case DeleteDialogClosed => ListStep(s.(deleteDialogOpen := false), None, 0)
    case PopupClosed => ListStep(s.(popupOpen := false), None, 0)
  }

  /** The effect on `[openPopup, openDeleteDialog]`: when either flag has
      changed and both are now closed, both pending targets are dropped. */
  function Settle(before: ListState, after: ListState): (r: ListState)
    ensures !r.popupOpen && !r.deleteDialogOpen && (r.popupOpen, r.deleteDialogOpen) != (before.popupOpen, before.deleteDialogOpen)
            ==> r.editTarget == None && r.deleteTarget == None
    ensures r.(editTarget := after.editTarget, deleteTarget := after.deleteTarget) == after
    ensures !((after.popupOpen != before.popupOpen || after.deleteDialogOpen != before.deleteDialogOpen)
              && !after.popupOpen && !after.deleteDialogOpen)
            ==> r == after
  {
    var flagsChanged := after.popupOpen != before.popupOpen || after.deleteDialogOpen != before.deleteDialogOpen;
    if flagsChanged && !after.popupOpen && !after.deleteDialogOpen then
      after.(editTarget := None, deleteTarget := None)
    else
      after
  }

  /** One event: its handler, then the effect. Only a confirmation sends
      anything, and what it sends is the delete of the recorded target; the
      effect never sends or refreshes, and never breaks consistency. */
  function Step(s: ListState, e: ListEvent): (r: ListStep)
    ensures r.request.Some? <==> e.DeleteConfirmed?
    ensures e.DeleteConfirmed? ==> r.request == Some(Delete(s.deleteTarget))
    ensures r.refreshes == (if e.DeleteConfirmed? && e.outcome.Success? then 1 else 0)
    ensures Consistent(s) ==> Consistent(r.state)
    ensures e.SearchInput? ==> r.state == s.(search := NormaliseSearch(e.raw))
    ensures e.DeleteDialogClosed? ==> !r.state.deleteDialogOpen && r.state.popupOpen == s.popupOpen
    ensures e.PopupClosed? ==> !r.state.popupOpen && r.state.deleteDialogOpen == s.deleteDialogOpen
  {
    var h := Handle(s, e);
    ListStep(Settle(s, h.state), h.request, h.refreshes)
  }

  /** Marking an appointment for deletion records its id and opens the
      confirmation dialog; it sends nothing and touches nothing else. */
  lemma MarkingSendsNothing(s: ListState, id: int)
    ensures Step(s, DeleteClicked(id))
         == ListStep(s.(deleteTarget := Some(id), deleteDialogOpen := true, successText := DeletedText), None, 0)
  {
  }

  /** Confirming sends exactly one delete, for the marked id. On success the
      dialog closes and one refresh is asked for; on failure nothing changes. */
  lemma ConfirmDeletesMarked(s: ListState, id: int, outcome: Response<()>)
    requires s.deleteDialogOpen && s.deleteTarget == Some(id)
    ensures Step(s, DeleteConfirmed(outcome)).request == Some(Delete(Some(id)))
    ensures outcome.Failure? ==> Step(s, DeleteConfirmed(outcome)) == ListStep(s, Some(Delete(Some(id))), 0)
    ensures outcome.Success? ==>
      && !Step(s, DeleteConfirmed(outcome)).state.deleteDialogOpen
      && Step(s, DeleteConfirmed(outcome)).refreshes == 1
    ensures outcome.Success? && !s.popupOpen ==> Step(s, DeleteConfirmed(outcome)).state.deleteTarget == None
  {
  }

  /** `setAppointmentToEditData`: once the appointment's availabilities have
      arrived the appointment becomes the edit target and the popup opens; if
      the request fails nothing changes. */
  lemma EditOpensPopup(s: ListState, a: Appointment, fetched: Response<seq<Slot>>)
    ensures fetched.Failure? ==> Step(s, EditClicked(a, fetched)) == ListStep(s, None, 0)
    ensures fetched.Success? ==>
      var t := Step(s, EditClicked(a, fetched)).state;
      && t.popupOpen && t.editTarget == Some(a) && t.editSlots == fetched.payload
      && t.deleteTarget == s.deleteTarget && t.search == s.search
  {
  }

  /** What the list keeps consistent between events: with both the popup and
      the dialog closed nothing is pending, an open dialog always has a
      target to delete, and an open popup always has an appointment to edit. */
  predicate Consistent(s: ListState) {
    && (!s.popupOpen && !s.deleteDialogOpen ==> s.editTarget.None? && s.deleteTarget.None?)
    && (s.deleteDialogOpen ==> s.deleteTarget.Some?)
    && (s.popupOpen ==> s.editTarget.Some?)
  }

  lemma InitialConsistent()
    ensures Consistent(InitialList)
  {
  }

  /** A run of several events: the final state, every request sent in order,
      and the total number of list refreshes asked for. */
  datatype Trace = Trace(state: ListState, sent: seq<Request>, refreshes: nat)

  function Run(s: ListState, events: seq<ListEvent>): Trace
    decreases |events|
  {
    if events == [] then Trace(s, [], 0)
    else
      var first := Step(s, events[0]);
      var rest := Run(first.state, events[1..]);
      Trace(rest.state, (if first.request.Some? then [first.request.value] else []) + rest.sent,
            first.refreshes + rest.refreshes)
  }

  /** Two-phase delete: however the user marks, searches, edits or closes,
      no delete is sent until a confirmation happens. */
  lemma {:induction false} NoDeleteWithoutConfirm(s: ListState, events: seq<ListEvent>)
    requires forall i :: 0 <= i < |events| ==> !events[i].DeleteConfirmed?
    ensures Run(s, events).sent == []
    ensures Run(s, events).refreshes == 0
    decreases |events|
  {
    if events != [] {
      NoDeleteWithoutConfirm(Step(s, events[0]).state, events[1..]);
    }
  }

  /** Along any run from a consistent state the state stays consistent: in
      particular an open dialog always carries a target to delete. */
  lemma {:induction false} ConsistentAlongRun(s: ListState, events: seq<ListEvent>)
    requires Consistent(s)
    ensures Consistent(Run(s, events).state)
    decreases |events|
  {
    if events != [] {
      ConsistentAlongRun(Step(s, events[0]).state, events[1..]);
    }
  }

  /** The list the user sees: the appointments that pass the render-time
      test for the current query, the date range compared as it is. */
  function Visible(s: ListState, appointments: seq<Appointment>, practitioners: seq<Practitioner>, fmt: RangeFormatter)
    : (shown: seq<Appointment>)
    ensures IsSubsequence(shown, appointments)
    ensures s.search == [] ==> shown == appointments
    ensures forall a :: a in shown <==> a in appointments && Matches(a, s.search, practitioners, fmt)
  {
    Displayed(appointments, s.search, practitioners, fmt)
  }

  /** What the user types decides what is shown: after a search input the
      screen lists exactly the appointments the as-written test accepts for
      the normalised input, in their original order. */
  lemma TypedSearchIsShown(
    s: ListState, raw: string, appointments: seq<Appointment>, practitioners: seq<Practitioner>, fmt: RangeFormatter)
    ensures Visible(Step(s, SearchInput(raw)).state, appointments, practitioners, fmt)
         == Displayed(appointments, NormaliseSearch(raw), practitioners, fmt)
  {
  }

  /** The form the edit popup holds, freshly mounted from the pending edit
      target and the slots fetched for it. */
  function EditForm(s: ListState): (f: AppointmentForm.Form)
    ensures f.editTarget == s.editTarget && f.slots == s.editSlots
    ensures f.values == f.draft && f.mountValues == f.draft
    ensures s.editTarget.None? ==> f.draft == EmptyDraft && f.selection == AppointmentForm.Unchosen
    ensures s.editTarget.Some? ==>
      && f.draft.startDate == s.editTarget.value.startDate
      && f.draft.endDate == s.editTarget.value.endDate
      && f.selection.At?
  {
    AppointmentForm.Initial(s.editTarget, s.editSlots)
  }

  /** Clicking Edit on an appointment opens a form pre-filled with its dates
      and the fetched slots, whose accepted submit updates that appointment
      and no other. */
  lemma EditSubmitsUpdate(s: ListState, a: Appointment, slots: seq<Slot>, outcome: Response<()>)
    ensures var t := Step(s, EditClicked(a, Success(slots))).state;
      var f := EditForm(t);
      var sub := AppointmentForm.Submit(f, outcome);
      && f.editTarget == Some(a)
      && f.slots == slots
      && f.draft.startDate == a.startDate && f.draft.endDate == a.endDate
      && f.selection.At?
      && (sub.request.Some? ==> sub.request.value == Update(a.id, f.draft))
  {
  }
}

=== FILE: records.dfy ===
/** The records the booking screens exchange with the server, and the shapes
    of the outcomes of its network calls. */
module Records {

  datatype Option<T> = None | Some(value: T)

  /** What a network call (`fetch`, an axios request) ended with: a payload,
      or a rejected promise. */
  datatype Response<T> = Success(payload: T) | Failure

  /** A stored appointment; ids are the server's integer keys, dates are the
      ISO timestamp strings the server returns. */
  datatype Appointment = Appointment(
    id: int,
    patientId: int,
    practitionerId: int,
    startDate: string,
    endDate: string)

  /** An open time slot of one practitioner, as the availabilities endpoint
      returns it. */
  datatype Slot = Slot(id: int, practitionerId: int, startDate: string, endDate: string)

  datatype Practitioner = Practitioner(id: int, firstName: string, lastName: string)

  /** The form's working copy of an appointment: four strings, the empty
      string meaning "not filled in". */
  datatype Draft = Draft(patientId: string, practitionerId: string, startDate: string, endDate: string)

  const EmptyDraft := Draft("", "", "", "")

  /** A mutating request sent to the appointments endpoint. A delete carries
      whatever target the list had recorded, which is `null` when none. */
  datatype Request =
    | Create(body: Draft)
    | Update(appointmentId: int, body: Draft)
    | Delete(target: Option<int>)

  /** `formatDateRange({from: new Date(start), to: new Date(end)})`: the
      display text of a date range, whose definition is not part of this
      model, so every operation that shows a range takes it as a parameter. */
  type RangeFormatter = (string, string) -> string
}

=== FILE: seqs.dfy ===
/** The array operations the screens use on their lists: `findIndex` / `find`
    and the order-keeping selection a conditional `map` performs when it
    renders some elements and skips the others. */
module Seqs {

  /** `Array.prototype.findIndex`: the position of the first element that
      satisfies `p`, or -1 when none does. */
  function FindIndex<T>(s: seq<T>, p: T -> bool): (r: int)
    ensures -1 <= r < |s|
    ensures 0 <= r ==> p(s[r]) && forall j :: 0 <= j < r ==> !p(s[j])
    ensures r == -1 <==> forall j :: 0 <= j < |s| ==> !p(s[j])
  {
    if s == [] then -1
    else if p(s[0]) then 0
    else
      var k := FindIndex(s[1..], p);
      assert forall j :: 1 <= j < |s| ==> s[j] == s[1..][j - 1];
      if k == -1 then -1 else k + 1
  }

  /** `sub` can be obtained from `s` by deleting elements, without adding or
      reordering any. */
  predicate IsSubsequence<T(==,!new)>(sub: seq<T>, s: seq<T>)
    decreases |s|
  {
    || sub == []
    || (s != [] && ((sub[0] == s[0] && IsSubsequence(sub[1..], s[1..])) || IsSubsequence(sub, s[1..])))
  }

  /** The elements of `s` that satisfy `keep`, in their original order. */
  function Filter<T(==,!new)>(s: seq<T>, keep: T -> bool): (r: seq<T>)
    ensures |r| <= |s|
    ensures forall x :: x in r <==> x in s && keep(x)
    ensures forall x :: multiset(r)[x] == if keep(x) then multiset(s)[x] else 0
  {
    if s == [] then []
    else
      var rest := Filter(s[1..], keep);
      assert s == [s[0]] + s[1..];
      if keep(s[0]) then [s[0]] + rest else rest
  }

  lemma {:induction false} FilterIsSubsequence<T(!new)>(s: seq<T>, keep: T -> bool)
    ensures IsSubsequence(Filter(s, keep), s)
    decreases |s|
  {
    if s != [] {
      FilterIsSubsequence(s[1..], keep);
      var r := Filter(s, keep);
      if keep(s[0]) {
        assert r[0] == s[0] && r[1..] == Filter(s[1..], keep);
      } else {
        assert r == Filter(s[1..], keep);
      }
    }
  }

  /** When every element is kept, filtering returns the sequence itself. */
  lemma {:induction false} FilterKeepingAll<T(!new)>(s: seq<T>, keep: T -> bool)
    requires forall i :: 0 <= i < |s| ==> keep(s[i])
    ensures Filter(s, keep) == s
    decreases |s|
  {
    if s != [] {
      FilterKeepingAll(s[1..], keep);
      assert keep(s[0]);
    }
  }

  /** Filtering depends only on the verdicts `keep` gives on the elements of
      the sequence. */
  lemma {:induction false} FilterAgreeing<T(!new)>(s: seq<T>, keep: T -> bool, keep': T -> bool)
    requires forall i :: 0 <= i < |s| ==> keep(s[i]) == keep'(s[i])
    ensures Filter(s, keep) == Filter(s, keep')
    decreases |s|
  {
    if s != [] {
      FilterAgreeing(s[1..], keep, keep');
      assert keep(s[0]) == keep'(s[0]);
    }
  }
}

=== FILE: text.dfy ===
/** String primitives the booking screens rely on: JavaScript's `trim`,
    `toLowerCase` (restricted to ASCII), `startsWith`, `includes`, and the
    decimal rendering `Number.prototype.toString` gives an integer id. */
module Text {

  /** The characters `String.prototype.trim` strips: the ECMAScript
      WhiteSpace and LineTerminator code points. */
  predicate IsSpace(c: char) {
    || c == ' ' || c == '\t' || c == '\n' || c == '\r'
    || c == '\U{B}' || c == '\U{C}' || c == '\U{A0}' || c == '\U{1680}'
    || ('\U{2000}' <= c <= '\U{200A}')
    || c == '\U{2028}' || c == '\U{2029}' || c == '\U{202F}'
    || c == '\U{205F}' || c == '\U{3000}' || c == '\U{FEFF}'
  }

  predicate AllSpace(s: string) {
    forall i :: 0 <= i < |s| ==> IsSpace(s[i])
  }

  /** Drops leading white space: the result is the suffix that starts at the
      first non-space character. */
  function TrimStart(s: string): (r: string)
    ensures |r| <= |s| && r == s[|s| - |r|..]
    ensures AllSpace(s[..|s| - |r|])
    ensures r != [] ==> !IsSpace(r[0])
  {
    if s != [] && IsSpace(s[0]) then TrimStart(s[1..]) else s
  }

  /** Drops trailing white space: the result is the prefix that ends at the
      last non-space character. */
  function TrimEnd(s: string): (r: string)
    ensures |r| <= |s| && r == s[..|r|]
    ensures AllSpace(s[|r|..])
    ensures r != [] ==> !IsSpace(r[|r| - 1])
  {
    if s != [] && IsSpace(s[|s| - 1]) then TrimEnd(s[..|s| - 1]) else s
  }

  /** `String.prototype.trim`. It yields the empty string exactly when every
      character of the input is white space. */
  function Trim(s: string): (r: string)
    ensures r == [] <==> AllSpace(s)
    ensures r != [] ==> !IsSpace(r[0]) && !IsSpace(r[|r| - 1])
  {
    var t := TrimStart(s);
    var r := TrimEnd(t);
    assert r == [] ==> AllSpace(s) by {
      if r == [] {
        assert t[|r|..] == t;
        assert t == [];
        assert s[..|s| - |t|] == s;
      }
    }
    assert r != [] ==> r[0] == t[0];
    r
  }

  /** ASCII `toLowerCase`: maps 'A'..'Z' to 'a'..'z' and keeps every other
      character. */
  function Lower(c: char): char {
    if 'A' <= c <= 'Z' then (c as int + 32) as char else c
  }

  function LowerString(s: string): (r: string)
    ensures |r| == |s|
    ensures forall i :: 0 <= i < |s| ==> r[i] == Lower(s[i])
  {
    seq(|s|, i requires 0 <= i < |s| => Lower(s[i]))
  }

  /** Lowering never turns a white-space character into a visible one or back,
      and lowering twice is lowering once. */
  lemma LowerFacts(c: char)
    ensures IsSpace(Lower(c)) <==> IsSpace(c)
    ensures Lower(Lower(c)) == Lower(c)
    ensures 'a' <= Lower(c) <= 'z' <==> ('a' <= c <= 'z' || 'A' <= c <= 'Z')
  {
  }

  lemma LowerStringIdempotent(s: string)
    ensures LowerString(LowerString(s)) == LowerString(s)
  {
    forall i | 0 <= i < |s| ensures LowerString(LowerString(s))[i] == LowerString(s)[i] {
      LowerFacts(s[i]);
    }
  }

  /** `String.prototype.startsWith`: the first `|prefix|` characters of `s`
      are those of `prefix`, one by one. */
  predicate StartsWith(s: string, prefix: string): (b: bool)
    ensures b <==> |prefix| <= |s| && forall i :: 0 <= i < |prefix| ==> s[i] == prefix[i]
  {
    |prefix| <= |s| && s[..|prefix|] == prefix
  }

  /** `sub` occurs in `s` starting at position `i`. */
  predicate OccursAt(s: string, sub: string, i: nat) {
    i + |sub| <= |s| && s[i..i + |sub|] == sub
  }

  /** `String.prototype.includes`: true exactly when `sub` occurs somewhere in
      `s` (the empty string occurs everywhere). */
  function Contains(s: string, sub: string): (b: bool)
    ensures b <==> exists i: nat :: i <= |s| && OccursAt(s, sub, i)
    decreases |s|
  {
    if StartsWith(s, sub) then
      assert OccursAt(s, sub, 0);
      true
    else if s == [] then
      false
    else
      var b := Contains(s[1..], sub);
      assert b ==> exists i: nat :: i <= |s| && OccursAt(s, sub, i) by {
        if b {
          var j: nat :| j <= |s[1..]| && OccursAt(s[1..], sub, j);
          assert s[1..][j..j + |sub|] == s[j + 1..j + 1 + |sub|];
          assert OccursAt(s, sub, j + 1);
        }
      }
      assert (exists i: nat :: i <= |s| && OccursAt(s, sub, i)) ==> b by {
        if i: nat :| i <= |s| && OccursAt(s, sub, i) {
          assert i != 0;
          assert s[1..][i - 1..i - 1 + |sub|] == s[i..i + |sub|];
          assert OccursAt(s[1..], sub, i - 1);
        }
      }
      b
  }

  /** A query already in lower case that occurs in a text also occurs in the
      lowered text, at the same position. */
  lemma ContainsLowered(s: string, sub: string)
    ensures LowerString(sub) == sub && Contains(s, sub) ==> Contains(LowerString(s), sub)
  {
    if LowerString(sub) == sub && Contains(s, sub) {
      var i: nat :| i <= |s| && OccursAt(s, sub, i);
      var t := LowerString(s);
      forall k | 0 <= k < |sub| ensures t[i..i + |sub|][k] == sub[k] {
        assert s[i..i + |sub|][k] == s[i + k];
        assert sub[k] == LowerString(sub)[k] == Lower(sub[k]);
      }
      assert OccursAt(t, sub, i);
    }
  }

  function DigitChar(d: nat): (c: char)
    requires d < 10
    ensures '0' <= c <= '9'
  {
    "0123456789"[d]
  }

  function DigitValue(c: char): nat {
    if '0' <= c <= '9' then c as int - '0' as int else 0
  }

  /** Decimal digits of a natural number, most significant first, with no
      leading zero. */
  function Digits(n: nat): (s: string)
    ensures s != []
    ensures forall i :: 0 <= i < |s| ==> '0' <= s[i] <= '9'
    ensures |s| > 1 ==> s[0] != '0'
    decreases n
  {
    if n < 10 then [DigitChar(n)] else Digits(n / 10) + [DigitChar(n % 10)]
  }

  /** What `Number.prototype.toString()` gives for an integer id. */
  function DecimalString(n: int): (s: string)
    ensures s != []
    ensures forall i :: 0 <= i < |s| ==> s[i] == '-' || '0' <= s[i] <= '9'
    ensures s[0] == '-' <==> n < 0
  {
    if n < 0 then "-" + Digits(-n) else Digits(n)
  }

  /** Reads a string of decimal digits back into a number. */
  function ParseDigits(s: string): nat
    decreases |s|
  {
    if s == [] then 0 else ParseDigits(s[..|s| - 1]) * 10 + DigitValue(s[|s| - 1])
  }

  function ParseDecimal(s: string): int {
    if s != [] && s[0] == '-' then -(ParseDigits(s[1..]) as int) else ParseDigits(s)
  }

  lemma {:induction false} DigitsRoundTrip(n: nat)
    ensures ParseDigits(Digits(n)) == n
    decreases n
  {
    var s := Digits(n);
    if n < 10 {
      assert s[..|s| - 1] == [];
      assert DigitValue(DigitChar(n)) == n by {
        assert "0123456789"[n] as int == '0' as int + n;
      }
    } else {
      DigitsRoundTrip(n / 10);
      assert s[..|s| - 1] == Digits(n / 10);
      var d := n % 10;
      assert DigitValue(DigitChar(d)) == d by {
        assert "0123456789"[d] as int == '0' as int + d;
      }
    }
  }

  /** The decimal rendering loses nothing: two ids render alike only when they
      are equal. */
  lemma DecimalRoundTrip(n: int)
    ensures ParseDecimal(DecimalString(n)) == n
  {
    if n < 0 {
      DigitsRoundTrip(-n);
      assert DecimalString(n)[1..] == Digits(-n);
    } else {
      DigitsRoundTrip(n);
    }
  }

  /** A rendered id is its own normal form: it holds no white space and
      lowering leaves it as it is. */
  lemma DecimalStringIsLowerAndVisible(n: int)
    ensures !AllSpace(DecimalString(n))
    ensures LowerString(DecimalString(n)) == DecimalString(n)
  {
    var s := DecimalString(n);
    assert !IsSpace(s[0]);
  }
}
